=== FILE: README.md ===
# cmcp decision core, modelled in Dafny

`cmcp` is a command-line client for MCP servers:
`cmcp <cmd_or_url> <method> [item ...] [-v]`. It calls one method on the
server and prints the result. This project models the pure decisions the
client makes before any I/O happens, and proves properties of them:

- **Item grammar** (`parse_items`). Each token is `key=text`, `key:=json` or
  `key:text`, matched by the anchored pattern `^([^:=]+)(=|:=|:)(.+)$` with
  DOTALL. `Items.SepIndex` and `Items.MatchItem` implement the pattern as a
  string function. `Items.Decomposes` and `Items.Preferred` are an independent
  reading of the pattern: every way the pattern can split a token, and the
  alternation order `=`, then `:=`, then `:`. The two are proved equal.
  `Items.Classify` routes one token to a parameter or to a metadata entry.
  `Items.ParseAll` is the loop `for item in items: parse(item)`, and
  `Items.ParseItems` applies it with `Classify` as the per-token step. The
  lemmas about `ParseAll` hold for any per-token step, so they hold for
  `ParseItems`. `json.loads` is a parameter of type `Json.Decoder`: a partial
  function from text to a JSON value.
- **Transport selection** (the first half of `Client.invoke`). `Transport.Select`
  turns the target and the metadata into `Sse(url, headers)`,
  `StreamHttp(url, headers)` or `Stdio(command, args, env)`, or into an error.
  `Transport.NormaliseUrl` is the `/mcp/` endpoint rule. `shlex.split` is a
  parameter of type `Transport.Splitter`. `ShellWords.WhitespaceSplit` is a
  concrete splitter for plain whitespace, built on the word function
  `ShellWords.Words`.
- **Method validation and dispatch**. `Methods.MethodNames` is the `METHODS`
  tuple. `Methods.ParseMethod` is the `match` on the method string.
  `Methods.Dispatch` maps each of the seven methods to its `ClientSession`
  call. `Envelope` builds the JSON-RPC 2.0 Request object (section 4 of the
  JSON-RPC 2.0 Specification) and Response object (section 5) that verbose
  mode prints.
- **The order of checks in `main`**. `Cli.PlanInvocation` runs the checks in
  order: method, then items, then transport. Its result holds the transport,
  the session call and the request envelope. Everything after that is I/O.

The modules are `Wrappers`, `Strings`, `Json`, `Items`, `ShellWords`,
`Transport`, `Methods`, `Envelope` and `Cli`, one file each.

Two behaviours follow the code rather than what a reader might expect:

- The `/mcp` test is a plain suffix test on the whole target, so a query
  string defeats it: `https://example.com/mcp?x=1` becomes
  `https://example.com/mcp?x=1/mcp/` (`Transport.NormaliseQuery`). Testing only the
  path component would be a natural reading of the rule, but the model follows
  the code.
- List methods take no arguments, so any params given to them are dropped
  (`Methods.Dispatch`, `Methods.DispatchDeterminedByKwArgs`).

## Model

| member | source | states |
|---|---|---|
| Items.SepIndex | cmcp/__init__.py:215 | The greedy key group `[^:=]+` ends at the returned index: no `:` or `=` before it, and a `:` or `=` at it when it is inside the token. |
| Items.MatchItem | cmcp/__init__.py:215 | Every match it reports is a real decomposition of the token: a key without `:`/`=`, one of the three separators, a non-empty value, which concatenate back to the token. |
| Items.MatchItemPreferred | cmcp/__init__.py:215 | The reported match is the one the regex engine picks. No decomposition with a separator earlier in the alternation (`=`, then `:=`, then `:`) exists. |
| Items.MatchItemComplete | cmcp/__init__.py:215 | If any decomposition of a token exists, the match succeeds. It has the same key and a separator at least as early in the alternation. |
| Items.MatchItemIsRegex | cmcp/__init__.py:215 | The match is `Some(it)` exactly when `it` is the regex's preferred decomposition. A rejected token has no decomposition at all. |
| Items.RenderRoundTrip | cmcp/__init__.py:215 | Printing a canonical item as `key + sep + value` and matching it again gives the same item. |
| Items.MatchRoundTrip | cmcp/__init__.py:215 | Every matched token equals its printed groups, and those groups are canonical. `k:` + `=v` is never reported when `k:=` + `v` is possible. |
| Items.MatchItemRejects | cmcp/__init__.py:215-223 | A token is rejected as "Invalid item" exactly when it has no separator, or starts with one, or its first separator is its last character (`k=`, `k:`). |
| Items.Classify | cmcp/__init__.py:220-238 | A token fails with `InvalidItem(token)` exactly when the pattern does not match it. A successful entry carries the matched key. |
| Items.ClassifyAssign | cmcp/__init__.py:227-228 | `key=text` becomes the parameter `key` with the raw text as a string. |
| Items.ClassifyJsonAssign | cmcp/__init__.py:229-234 | `key:=text` becomes the parameter `key` with the decoded value. If decoding fails, the result is `InvalidJsonValue(text)`. |
| Items.ClassifyMeta | cmcp/__init__.py:235-236 | `key:text` becomes the metadata entry `key` with the raw text. This includes `k:=`, which becomes `k -> "="`. |
| Items.ParseItemsEmpty | cmcp/__init__.py:217-218 | No tokens give two empty maps. |
| Items.ParseAll | cmcp/__init__.py:240-243 | The left-to-right fold over the tokens succeeds exactly when every token is valid on its own. |
| Items.ParseItems | cmcp/__init__.py:211-243 | `parse_items` succeeds exactly when every token classifies successfully. On failure it returns the error of the first token that fails to classify, and all tokens before it are valid. |
| Items.ParseItemsFirstError | cmcp/__init__.py:240-241 | A failed parse returns the error of the first bad token, and no maps. |
| Items.ParamKeys | cmcp/__init__.py:226-243 | A key is in params exactly when some token writes it as a parameter. Metadata tokens with the same key have no effect on params. |
| Items.ParamLastWins | cmcp/__init__.py:226-243 | The last token that writes a parameter key decides its value. |
| Items.MetaKeys | cmcp/__init__.py:235-243 | A key is in metadata exactly when some token writes it as metadata. Parameter tokens have no effect on metadata. |
| Items.MetaLastWins | cmcp/__init__.py:235-243 | The last `key:text` token for a key decides its metadata value. |
| Items.ParseLastWinsExample | cmcp/__init__.py:211-243 | `["a=1", "a=2"]` parses to params `{a: "2"}` and empty metadata. |
| Items.ParseJsonExample | cmcp/__init__.py:229-232 | `["x:=true"]` parses to params `{x: true}` when the decoder reads `true`. |
| Items.ParseMetadataExample | cmcp/__init__.py:235-236 | `["h:dev"]` parses to empty params and metadata `{h: "dev"}`. |
| Items.ParseBadTokenExample | cmcp/__init__.py:221-223 | `["badtoken"]` fails with `InvalidItem("badtoken")`. |
| Items.ColonEqualsExample | cmcp/__init__.py:215 | `k:=` is the metadata entry `k -> "="`, not a JSON parameter. |
| ShellWords.Words | cmcp/__init__.py:127 | Every word produced is non-empty and contains no blank. |
| ShellWords.WordsKeepText | cmcp/__init__.py:127 | Splitting drops only blanks: the words concatenated are the non-blank characters of the target, in order. |
| ShellWords.WordsEmptyIff | cmcp/__init__.py:127-129 | A target splits into no words exactly when it is empty or all blank. |
| ShellWords.WordThenRest | cmcp/__init__.py:127 | A word followed by a blank, or by nothing, is split off whole. |
| ShellWords.WordsJoinRoundTrip | cmcp/__init__.py:127 | Splitting words joined by single spaces gives back the words, so `mycli --flag` splits into `mycli` and `--flag`. |
| Strings.RemoveSuffix | cmcp/__init__.py:115 | `removesuffix`: if the suffix is present, the result plus the suffix is the input. Otherwise the input is unchanged. |
| Transport.OrNone | cmcp/__init__.py:108 | `metadata or None` is absent exactly when the map is empty, and it still stands for the same map. |
| Transport.NormaliseUrl | cmcp/__init__.py:114-115 | The endpoint always ends in `/mcp` or `/mcp/`. It equals the input exactly when the input already ends in one of them. |
| Transport.NormaliseShape | cmcp/__init__.py:114-115 | A rewritten endpoint is the input with its one trailing `/` removed when it has one (and unchanged otherwise), followed by `/mcp/`. |
| Transport.NormaliseIdempotent | cmcp/__init__.py:114-115 | Normalising twice is the same as normalising once. |
| Transport.NormaliseKeepsPrefix | cmcp/__init__.py:114-115 | Normalising keeps a `http://` or `https://` prefix, even for a bare scheme. |
| Transport.Select | cmcp/__init__.py:106-137 | `http(s)://` targets ending in `/sse` give SSE with the URL unchanged. Other `http(s)://` targets give Streamable-HTTP with the normalised URL. Any other target is split: no words gives "stdio command is empty", a splitter error is passed on unchanged as `SplitFailed`, and otherwise the command is word 0 and the args are the rest. Every transport carries the metadata. |
| Transport.SelectAbsentMetadata | cmcp/__init__.py:108-135 | Headers (HTTP) or env (stdio) are absent exactly when the metadata is empty. |
| Transport.SelectStreamHttpStable | cmcp/__init__.py:106-115 | Selecting again on a normalised Streamable-HTTP endpoint gives the same transport. |
| Transport.SelectBlankTarget | cmcp/__init__.py:127-129 | With whitespace splitting, an empty or blank target is the "stdio command is empty" error. |
| Transport.SelectCommandLine | cmcp/__init__.py:127-136 | With whitespace splitting, `cmd a b` runs `cmd` with args `[a, b]` and the metadata as env. |
| Transport.NormaliseBareHost | cmcp/__init__.py:114-115 | `https://example.com` becomes `https://example.com/mcp/`. |
| Transport.NormaliseTrailingSlash | cmcp/__init__.py:114-115 | `https://example.com/` becomes `https://example.com/mcp/`. |
| Transport.NormaliseAlreadyMcp | cmcp/__init__.py:114 | `https://example.com/mcp` is unchanged. |
| Transport.NormaliseQuery | cmcp/__init__.py:114-115 | `https://example.com/mcp?x=1` is rewritten to `https://example.com/mcp?x=1/mcp/`, because the query is not looked at. |
| Transport.SseExample | cmcp/__init__.py:109-111 | `https://example.com/foo/sse` selects SSE with the URL unchanged. |
| Methods.ParseMethod | cmcp/__init__.py:147-170 | Every method the `match` accepts has exactly the matched string as its name. |
| Methods.MethodNamesTable | cmcp/__init__.py:26-34 | `METHODS` has seven distinct names, one per method, in declaration order. |
| Methods.ParseName | cmcp/__init__.py:147-167 | Each method's name is matched back to that method. |
| Methods.ParseMethodAcceptsMethods | cmcp/__init__.py:26-34 | The `match` accepts exactly the strings in `METHODS`, so its catch-all is unreachable after `main`'s check. |
| Methods.Dispatch | cmcp/__init__.py:147-167 | The call answers the given method. `prompts/get`, `resources/read` and `tools/call` receive the params unchanged as keyword arguments. The four list methods receive none. |
| Methods.DispatchDeterminedByKwArgs | cmcp/__init__.py:148-167 | Two dispatches of one method are equal exactly when their keyword arguments are, so a list method's call does not depend on the params. |
| Methods.SessionMethodInjective | cmcp/__init__.py:147-167 | Two dispatches await the same session coroutine exactly when they are for the same method. |
| Methods.DispatchByName | cmcp/__init__.py:147-170 | The string `match` yields a call exactly for the names in `METHODS`, and that call answers the named method. |
| Envelope.ShowRequest | cmcp/__init__.py:179-188 | The request has `jsonrpc` "2.0", `id` 1 and the method name. `params` is absent exactly when the params are empty, and the params can be read back from it unchanged. |
| Envelope.ShowResponse | cmcp/__init__.py:190-198 | The response carries the dumped result and answers every request the client prints: same version, same id. |
| Cli.PlanInvocation | cmcp/__init__.py:284-299 | A method outside `METHODS` is rejected whatever else is given. With a valid method, a bad item is rejected with its parse error. With a valid method and valid items, the result is a plan exactly when the transport can be selected, and otherwise the selection's error as `TransportFailed`. The unsupported-method catch-all never fires. A plan's call and request both name the requested method. |
| Cli.PlanUsesParsedItems | cmcp/__init__.py:289-299 | A plan's transport carries the parsed metadata and comes from `Select`. The request is exactly the JSON-RPC request built from the method name and the parsed params. A param-taking call gets those params. |
| Cli.InvalidMethodFirst | cmcp/__init__.py:284-290 | An invalid method gives the same outcome whatever the items and the target are, because it is checked before parsing and before connecting. |
| Cli.InvalidItemsBeforeTarget | cmcp/__init__.py:289-292 | A bad item gives the same outcome whatever the target is, because items are parsed before the transport is chosen. |

## Left out

- The connection lifecycle: `stdio_client`, `sse_client`, `streamablehttp_client`, `ClientSession.initialize` and the awaited session calls (cmcp/__init__.py:142-177). These are asynchronous library I/O. The model records only which transport and which call are chosen.
- The binding of the params to the session method's arguments (cmcp/__init__.py:152,158,167): an unknown or missing keyword is a Python `TypeError` raised after connecting and `initialize`, before the method's own request is sent. Errors the server returns for the call are not modelled either.
- The httpx tracing hooks and the choice of client factory in verbose mode (cmcp/__init__.py:48-87, 116-119). These are console output about network objects and do not affect which transport is chosen.
- `print_json`, pydantic's `model_dump_json(exclude_defaults=True)`, the `isatty` test and pygments highlighting (cmcp/__init__.py:201-208). These are serialisation and terminal output. `Envelope.ShowResponse` takes the result already dumped as a JSON value.
- The internals of `json.loads`. It is the `Json.Decoder` parameter, and JSON numbers are kept as their text.
- The quoting and escaping rules of `shlex.split`. These are the POSIX shell word rules, in sections 2.2 and 2.6.5 of the Shell Command Language. The splitter is the `Transport.Splitter` parameter, and an error from it (such as an unclosed quote) is passed on as `SplitFailed`. `ShellWords.Words` models only blank-separated words. Comments are off in the call at cmcp/__init__.py:127, so `#` is an ordinary word character there too, and `Words` agrees with `shlex.split` on every target that contains no `'`, `"` or `\`.
- The text of error messages (`repr` of the token). Errors carry the raw token or value instead.
- argparse, `asyncio.run`, the `Verbose: ...` print in `main`, and the printing of the envelopes (cmcp/__init__.py:246-300).

=== FILE: cli.dfy ===
/** The decision part of `main` followed by `Client.invoke`: validate the
    method, parse the items, select the transport, build the verbose request
    envelope and choose the session call. What remains after a successful plan
    is I/O: connecting, the handshake, the call itself and printing. */
module Cli {
  import opened Wrappers
  import Json
  import Items
  import Transport
  import Methods
  import Envelope

  datatype CliError =
    | InvalidMethod(name: string)                 // parser.error("Invalid method: ...")
    | InvalidItems(parseError: Items.ParseError)   // parser.error(str(exc))
    | TransportFailed(transportError: Transport.TransportError)
    | UnsupportedMethod(name: string)             // the match's defensive catch-all

  /** Everything the invocation will do, decided before any connection. */
  datatype Plan = Plan(transport: Transport.Transport, call: Methods.Call, request: Envelope.Request)

  function PlanInvocation(target: string, methodName: string, items: seq<string>,
                          decode: Json.Decoder, split: Transport.Splitter): (r: Result<Plan, CliError>)
    ensures methodName !in Methods.MethodNames ==> r == Failure(InvalidMethod(methodName))
    ensures methodName in Methods.MethodNames && Items.ParseItems(items, decode).Failure? ==>
      r == Failure(InvalidItems(Items.ParseItems(items, decode).error))
    ensures methodName in Methods.MethodNames && Items.ParseItems(items, decode).Success? ==>
      var t := Transport.Select(target, Items.ParseItems(items, decode).value.metadata, split);
      (t.Failure? ==> r == Failure(TransportFailed(t.error))) && (t.Success? ==> r.Success?)
    ensures r.Failure? ==> !r.error.UnsupportedMethod?
    ensures r.Success? ==> Items.ParseItems(items, decode).Success?
    ensures r.Success? ==> Methods.Name(Methods.MethodOf(r.value.call)) == methodName == r.value.request.methodName
  {
    Methods.ParseMethodAcceptsMethods(methodName);
    if methodName !in Methods.MethodNames then Failure(InvalidMethod(methodName))
    else
      match Items.ParseItems(items, decode)
      case Failure(e) => Failure(InvalidItems(e))
      case Success(parsed) =>
        match Transport.Select(target, parsed.metadata, split)
        case Failure(e) => Failure(TransportFailed(e))
        case Success(transport) =>
          var request := Envelope.ShowRequest(methodName, parsed.params);
          match Methods.DispatchByName(methodName, parsed.params)
          case None => Failure(UnsupportedMethod(methodName))
          case Some(call) => Success(Plan(transport, call, request))
  }

  /** A successful plan uses the parsed items throughout: metadata goes to the
      transport, params to both the envelope and (for param-taking methods)
      the call. */
  lemma PlanUsesParsedItems(target: string, methodName: string, items: seq<string>,
                            decode: Json.Decoder, split: Transport.Splitter)
    requires PlanInvocation(target, methodName, items, decode, split).Success?
    ensures var plan := PlanInvocation(target, methodName, items, decode, split).value;
      var parsed := Items.ParseItems(items, decode).value;
      && Transport.MetadataOf(plan.transport) == parsed.metadata
      && Envelope.ParamsOf(plan.request) == parsed.params
      && (Methods.TakesParams(Methods.MethodOf(plan.call)) ==> Methods.KwArgs(plan.call) == parsed.params)
      && Transport.Select(target, parsed.metadata, split) == Success(plan.transport)
      && plan.request == Envelope.ShowRequest(methodName, parsed.params)
  {
  }

  /** An unknown method is reported whatever the items and the target are:
      the check comes before parsing and before any connection. */
  lemma InvalidMethodFirst(target1: string, target2: string, methodName: string,
                           items1: seq<string>, items2: seq<string>,
                           decode: Json.Decoder, split: Transport.Splitter)
    requires methodName !in Methods.MethodNames
    ensures PlanInvocation(target1, methodName, items1, decode, split) ==
            PlanInvocation(target2, methodName, items2, decode, split)
  {
  }

  /** A bad item is reported whatever the target is: parsing comes before
      transport selection. */
  lemma InvalidItemsBeforeTarget(target1: string, target2: string, methodName: string, items: seq<string>,
                                 decode: Json.Decoder, split: Transport.Splitter)
    requires Items.ParseItems(items, decode).Failure?
    ensures PlanInvocation(target1, methodName, items, decode, split) ==
            PlanInvocation(target2, methodName, items, decode, split)
  {
  }
}

=== FILE: envelope.dfy ===
/** The synthetic JSON-RPC 2.0 envelopes printed in verbose mode: a Request
    object (section 4 of the JSON-RPC 2.0 Specification) before the call and a
    Response object (section 5) after it. */
module Envelope {
  import opened Wrappers
  import Json

  const JsonRpcVersion: string := "2.0"

  /** The one constant id the client uses for its single call. */
  const RequestId: int := 1

  datatype Request = Request(jsonrpc: string, id: int, methodName: string, params: Option<Json.Params>)

  datatype Response = Response(jsonrpc: string, id: int, result: Json.Value)

  /** The params a request carries; omitted params mean none. */
  function ParamsOf(req: Request): Json.Params {
    match req.params
    case None => map[]
    case Some(p) => p
  }

  /** `resp` is the reply to `req`: same protocol version, same id. */
  predicate Answers(resp: Response, req: Request) {
    resp.jsonrpc == JsonRpcVersion && req.jsonrpc == JsonRpcVersion && resp.id == req.id
  }

  /** `show_jsonrpc_request`: params are omitted (`self.params or None`) when empty. */
  function ShowRequest(methodName: string, params: Json.Params): (r: Request)
    ensures r.jsonrpc == JsonRpcVersion && r.id == RequestId
    ensures r.methodName == methodName
    ensures r.params.None? <==> params == map[]
    ensures ParamsOf(r) == params
  {
    Request(JsonRpcVersion, RequestId, methodName, if params == map[] then None else Some(params))
  }

  /** `show_jsonrpc_response`, for a result already dumped without its defaults. */
  function ShowResponse(result: Json.Value): (r: Response)
    ensures r.result == result
    ensures forall methodName, params :: Answers(r, ShowRequest(methodName, params))
  {
    Response(JsonRpcVersion, RequestId, result)
  }
}

=== FILE: items.dfy ===
/** The item grammar of `parse_items`: each command-line token is `key=text`,
    `key:=json` or `key:text`, matched by the anchored pattern
    `^([^:=]+)(=|:=|:)(.+)$` with DOTALL, then routed into the call parameters
    or the transport metadata. */
module Items {
  import opened Wrappers
  import Json

  datatype Separator = Assign | JsonAssign | Colon

  function SeparatorText(sep: Separator): string {
    match sep
    case Assign => "="
    case JsonAssign => ":="
    case Colon => ":"
  }

  /** Position of the separator in the pattern's alternation `=|:=|:`; the
      regex engine tries lower ranks first. */
  function Rank(sep: Separator): nat {
    match sep
    case Assign => 0
    case JsonAssign => 1
    case Colon => 2
  }

  /** The three groups of a successful match. */
  datatype Item = Item(key: string, sep: Separator, value: string)

  predicate IsSeparatorChar(c: char) {
    c == ':' || c == '='
  }

  /** A key is a non-empty run of characters other than `:` and `=` (`[^:=]+`). */
  predicate ValidKey(key: string) {
    |key| > 0 && forall j :: 0 <= j < |key| ==> !IsSeparatorChar(key[j])
  }

  function Render(it: Item): string {
    it.key + SeparatorText(it.sep) + it.value
  }

  /** `it` is one way the pattern can match the whole of `s`: a valid key, one of
      the three separators, and a non-empty value (`.+` under DOTALL takes any
      character, newlines included). */
  predicate Decomposes(s: string, it: Item) {
    ValidKey(it.key) && |it.value| > 0 && s == Render(it)
  }

  /** The match the regex engine reports: a decomposition that no alternative
      tried earlier in the alternation could also produce. */
  ghost predicate Preferred(s: string, it: Item) {
    Decomposes(s, it) && forall other :: Decomposes(s, other) ==> Rank(it.sep) <= Rank(other.sep)
  }

  /** Exactly the items the pattern can report: the only ambiguity, `k:=v`
      versus `k:` + `=v`, is resolved towards `:=`. */
  predicate Canonical(it: Item) {
    ValidKey(it.key) && |it.value| > 0 &&
    !(it.sep == Colon && |it.value| > 1 && it.value[0] == '=')
  }

  /** Index of the first `:` or `=` in `s`, or `|s|` when there is none. */
  function SepIndex(s: string): (i: nat)
    ensures i <= |s|
    ensures forall j :: 0 <= j < i ==> !IsSeparatorChar(s[j])
    ensures i < |s| ==> IsSeparatorChar(s[i])
  {
    if |s| == 0 then 0
    else if IsSeparatorChar(s[0]) then 0
    else 1 + SepIndex(s[1..])
  }

  /** `PATTERN.match(item)`: the greedy key stops at the first `:`/`=`; there the
      alternation tries `=`, then `:=` (only if a character follows it), then `:`. */
  function MatchItem(s: string): (r: Option<Item>)
    ensures r.Some? ==> Decomposes(s, r.value)
  {
    var i := SepIndex(s);
    if i == 0 || i == |s| then None
    else if s[i] == '=' then
      if i + 1 < |s| then
        assert s == s[..i] + "=" + s[i + 1..];
        Some(Item(s[..i], Assign, s[i + 1..]))
      else None
    else if i + 2 < |s| && s[i + 1] == '=' then
      assert s == s[..i] + ":=" + s[i + 2..];
      Some(Item(s[..i], JsonAssign, s[i + 2..]))
    else if i + 1 < |s| then
      assert s == s[..i] + ":" + s[i + 1..];
      Some(Item(s[..i], Colon, s[i + 1..]))
    else None
  }

  /** Any decomposition's key ends at the first separator character. */
  lemma DecompositionKeyIsSepIndex(s: string, it: Item)
    requires Decomposes(s, it)
    ensures SepIndex(s) == |it.key|
  {
    var n := |it.key|;
    assert forall j :: 0 <= j < n ==> s[j] == it.key[j];
    assert s[n] == SeparatorText(it.sep)[0];
    assert forall j :: 0 <= j < n ==> !IsSeparatorChar(s[j]);
    assert IsSeparatorChar(s[n]);
  }

  /** The match is the one the regex engine reports. */
  lemma MatchItemPreferred(s: string)
    requires MatchItem(s).Some?
    ensures Preferred(s, MatchItem(s).value)
  {
    var it := MatchItem(s).value;
    forall other | Decomposes(s, other)
      ensures Rank(it.sep) <= Rank(other.sep)
    {
      DecompositionKeyIsSepIndex(s, other);
      var i := |other.key|;
      assert s[i] == SeparatorText(other.sep)[0];
      if other.sep == JsonAssign {
        assert s[i + 1] == '=';
        assert |s| == i + 2 + |other.value|;
      }
    }
  }

  /** When the pattern can match at all, `MatchItem` finds a match with the
      same key and a separator at least as preferred. */
  lemma MatchItemComplete(s: string, it: Item)
    requires Decomposes(s, it)
    ensures MatchItem(s).Some?
    ensures MatchItem(s).value.key == it.key
    ensures Rank(MatchItem(s).value.sep) <= Rank(it.sep)
  {
    DecompositionKeyIsSepIndex(s, it);
    var i := |it.key|;
    assert s[..i] == it.key;
    assert s[i] == SeparatorText(it.sep)[0];
    if it.sep == JsonAssign {
      assert s[i + 1] == '=';
    }
  }

  /** The regex's reported groups are exactly `MatchItem`'s, and it rejects
      precisely the tokens no decomposition fits. */
  lemma MatchItemIsRegex(s: string, it: Item)
    ensures MatchItem(s) == Some(it) <==> Preferred(s, it)
    ensures MatchItem(s).None? ==> !Decomposes(s, it)
  {
    if MatchItem(s) == Some(it) {
      MatchItemPreferred(s);
    }
    if Preferred(s, it) {
      MatchItemComplete(s, it);
      var m := MatchItem(s).value;
      MatchItemPreferred(s);
      assert Rank(it.sep) <= Rank(m.sep);
      assert m.key == it.key;
      assert s == Render(m) && s == Render(it);
      assert m.sep == it.sep;
      assert m.value == s[|it.key| + |SeparatorText(it.sep)|..];
    }
    if Decomposes(s, it) {
      MatchItemComplete(s, it);
    }
  }

  /** Printing a canonical item and matching it again gives it back. */
  lemma {:induction false} RenderRoundTrip(it: Item)
    requires Canonical(it)
    ensures MatchItem(Render(it)) == Some(it)
  {
    var s := Render(it);
    assert Decomposes(s, it);
    MatchItemComplete(s, it);
    var m := MatchItem(s).value;
    var i := |it.key|;
    assert s[..i] == it.key;
    if it.sep == Colon {
      assert s[i] == ':';
      if |it.value| > 1 {
        assert s[i + 1] == it.value[0];
      }
    }
    assert m.key == it.key && m.sep == it.sep;
    assert s == Render(m);
    assert m.value == s[i + |SeparatorText(it.sep)|..];
  }

  /** Every matched token is the rendering of a canonical item. */
  lemma MatchRoundTrip(s: string)
    requires MatchItem(s).Some?
    ensures Render(MatchItem(s).value) == s
    ensures Canonical(MatchItem(s).value)
  {
    var it := MatchItem(s).value;
    var i := |it.key|;
    if it.sep == Colon && |it.value| > 1 && it.value[0] == '=' {
      var alt := Item(it.key, JsonAssign, it.value[1..]);
      assert Render(alt) == s;
      MatchItemPreferred(s);
      assert Decomposes(s, alt);
      assert false;
    }
  }

  /** A token is rejected exactly when it has no separator, starts with one,
      or its first separator is its last character. */
  lemma MatchItemRejects(s: string)
    ensures MatchItem(s).None? <==>
      (forall j :: 0 <= j < |s| ==> !IsSeparatorChar(s[j]))
      || (|s| > 0 && IsSeparatorChar(s[0]))
      || (|s| > 0 && IsSeparatorChar(s[|s| - 1]) &&
          forall j :: 0 <= j < |s| - 1 ==> !IsSeparatorChar(s[j]))
  {
    var i := SepIndex(s);
    assert i < |s| ==> IsSeparatorChar(s[i]);
  }

  // ---------------------------------------------------------------------------
  // Routing items into params and metadata

  datatype ParseError =
    | InvalidItem(item: string)        // "Invalid item: ..."
    | InvalidJsonValue(value: string)  // "Invalid JSON value: ..."

  /** What one token contributes: a parameter or a metadata entry. */
  datatype Entry = Param(key: string, val: Json.Value) | Meta(key: string, text: string)

  datatype Parsed = Parsed(params: Json.Params, metadata: map<string, string>)

  /** The body of the nested `parse(item)`: match the token and decide where its value goes. */
  function Classify(s: string, decode: Json.Decoder): (r: Result<Entry, ParseError>)
    ensures r == Failure(InvalidItem(s)) <==> MatchItem(s).None?
    ensures r.Success? ==> r.value.key == MatchItem(s).value.key
  {
    match MatchItem(s)
    case None => Failure(InvalidItem(s))
    case Some(Item(key, sep, value)) =>
      match sep
      case Assign => Success(Param(key, Json.String(value)))
      case JsonAssign =>
        (match decode(value)
         case Some(v) => Success(Param(key, v))
         case None => Failure(InvalidJsonValue(value)))
      case Colon => Success(Meta(key, value))
  }

  /** `key=text` stores the raw text as a parameter. */
  lemma ClassifyAssign(key: string, value: string, decode: Json.Decoder)
    requires ValidKey(key) && |value| > 0
    ensures Classify(key + "=" + value, decode) == Success(Param(key, Json.String(value)))
  {
    RenderRoundTrip(Item(key, Assign, value));
  }

  /** `key:=json` stores the decoded value as a parameter, or fails naming the text. */
  lemma ClassifyJsonAssign(key: string, value: string, decode: Json.Decoder)
    requires ValidKey(key) && |value| > 0
    ensures decode(value).Some? ==> Classify(key + ":=" + value, decode) == Success(Param(key, decode(value).value))
    ensures decode(value).None? ==> Classify(key + ":=" + value, decode) == Failure(InvalidJsonValue(value))
  {
    RenderRoundTrip(Item(key, JsonAssign, value));
  }

  /** `key:text` stores the raw text as metadata; in particular `k:=` is the
      metadata entry `k -> "="`. */
  lemma ClassifyMeta(key: string, value: string, decode: Json.Decoder)
    requires ValidKey(key) && |value| > 0 && !(|value| > 1 && value[0] == '=')
    ensures Classify(key + ":" + value, decode) == Success(Meta(key, value))
  {
    RenderRoundTrip(Item(key, Colon, value));
  }

  function Insert(acc: Parsed, e: Entry): Parsed {
    match e
    case Param(k, v) => acc.(params := acc.params[k := v])
    case Meta(k, t) => acc.(metadata := acc.metadata[k := t])
  }

  lemma InsertFacts(acc: Parsed, e: Entry, k: string)
    ensures k in Insert(acc, e).params <==> (e.Param? && e.key == k) || k in acc.params
    ensures k in Insert(acc, e).metadata <==> (e.Meta? && e.key == k) || k in acc.metadata
    ensures e.Param? && e.key == k ==> Insert(acc, e).params[k] == e.val
    ensures e.Meta? && e.key == k ==> Insert(acc, e).metadata[k] == e.text
    ensures !(e.Param? && e.key == k) && k in acc.params ==> Insert(acc, e).params[k] == acc.params[k]
    ensures !(e.Meta? && e.key == k) && k in acc.metadata ==> Insert(acc, e).metadata[k] == acc.metadata[k]
  {
  }

  /** A per-token step such as the nested `parse(item)`. */
  type ItemParser = string -> Result<Entry, ParseError>

  /** The loop `for item in items: parse(item)` over two initially empty dicts:
      tokens are applied left to right, and the first failing token aborts the
      whole parse, so no partial maps escape. */
  function ParseAll(items: seq<string>, parse: ItemParser): (r: Result<Parsed, ParseError>)
    ensures r.Success? <==> AllValid(items, parse)
    decreases |items|
  {
    if |items| == 0 then Success(Parsed(map[], map[]))
    else
      assert forall i :: 0 <= i < |items| - 1 ==> items[..|items| - 1][i] == items[i];
      var acc :- ParseAll(items[..|items| - 1], parse);
      var e :- parse(items[|items| - 1]);
      Success(Insert(acc, e))
  }

  /** `parse_items`: it succeeds exactly when every token is valid on its own,
      and otherwise reports the error of the first bad token. */
  function ParseItems(items: seq<string>, decode: Json.Decoder): (r: Result<Parsed, ParseError>)
    ensures r.Success? <==> forall i :: 0 <= i < |items| ==> Classify(items[i], decode).Success?
    ensures r.Failure? ==>
      exists i :: && 0 <= i < |items|
                  && Classify(items[i], decode) == Failure(r.error)
                  && forall j :: 0 <= j < i ==> Classify(items[j], decode).Success?
  {
    var r := ParseAll(items, ItemStep(decode));
    if r.Failure? then ParseItemsFirstError(items, ItemStep(decode)); r else r
  }

  /** The nested `parse(item)` closure, for a given JSON decoder. */
  function ItemStep(decode: Json.Decoder): ItemParser {
    s => Classify(s, decode)
  }

  predicate WritesParam(r: Result<Entry, ParseError>, k: string) {
    r.Success? && r.value.Param? && r.value.key == k
  }

  predicate WritesMeta(r: Result<Entry, ParseError>, k: string) {
    r.Success? && r.value.Meta? && r.value.key == k
  }

  predicate AllValid(items: seq<string>, parse: ItemParser) {
    forall i :: 0 <= i < |items| ==> parse(items[i]).Success?
  }

  /** Token `i` fails with `e` and every token before it is valid. */
  predicate FirstError(items: seq<string>, parse: ItemParser, i: nat, e: ParseError)
    requires i < |items|
  {
    parse(items[i]) == Failure(e) &&
    forall j :: 0 <= j < i ==> parse(items[j]).Success?
  }

  lemma ParseItemsEmpty(parse: ItemParser)
    ensures ParseAll([], parse) == Success(Parsed(map[], map[]))
  {
  }

  /** One step of the left-to-right fold: the last token is applied to the
      result of the tokens before it. */
  lemma ParseItemsStep(items: seq<string>, parse: ItemParser)
    requires |items| > 0 && ParseAll(items, parse).Success?
    ensures ParseAll(items[..|items| - 1], parse).Success?
    ensures parse(items[|items| - 1]).Success?
    ensures ParseAll(items, parse).value ==
      Insert(ParseAll(items[..|items| - 1], parse).value, parse(items[|items| - 1]).value)
  {
  }

  /** A failed parse reports the error of the first bad token. */
  lemma {:induction false} ParseItemsFirstError(items: seq<string>, parse: ItemParser)
    requires ParseAll(items, parse).Failure?
    ensures exists i :: 0 <= i < |items| && FirstError(items, parse, i, ParseAll(items, parse).error)
    decreases |items|
  {
    var n := |items|;
    var front := items[..n - 1];
    assert forall i :: 0 <= i < |front| ==> front[i] == items[i];
    if ParseAll(front, parse).Failure? {
      ParseItemsFirstError(front, parse);
      var i :| 0 <= i < |front| && FirstError(front, parse, i, ParseAll(front, parse).error);
      assert FirstError(items, parse, i, ParseAll(items, parse).error);
    } else {
      assert FirstError(items, parse, n - 1, ParseAll(items, parse).error);
    }
  }

  /** A key is a parameter exactly when some token writes it as one; metadata
      tokens with the same key do not interfere. */
  lemma {:induction false} ParamKeys(items: seq<string>, parse: ItemParser, k: string)
    requires ParseAll(items, parse).Success?
    ensures k in ParseAll(items, parse).value.params <==>
      exists i :: 0 <= i < |items| && WritesParam(parse(items[i]), k)
    decreases |items|
  {
    if |items| > 0 {
      var n := |items|;
      var front := items[..n - 1];
      ParseItemsStep(items, parse);
      ParamKeys(front, parse, k);
      var p := ParseAll(items, parse).value;
      var q := ParseAll(front, parse).value;
      var e := parse(items[n - 1]).value;
      InsertFacts(q, e, k);
      if e.Param? && e.key == k {
        assert k in p.params;
        assert WritesParam(parse(items[n - 1]), k);
      } else {
        assert (k in p.params) == (k in q.params);
        if k in q.params {
          var i :| 0 <= i < |front| && WritesParam(parse(front[i]), k);
          assert items[i] == front[i];
          assert WritesParam(parse(items[i]), k);
        }
        if exists i :: 0 <= i < n && WritesParam(parse(items[i]), k) {
          var i :| 0 <= i < n && WritesParam(parse(items[i]), k);
          assert i < n - 1;
          assert front[i] == items[i];
          assert WritesParam(parse(front[i]), k);
        }
      }
    }
  }

  /** The last token that writes parameter `k` decides its value. */
  lemma {:induction false} ParamLastWins(items: seq<string>, parse: ItemParser, k: string, i: nat)
    requires ParseAll(items, parse).Success?
    requires i < |items| && WritesParam(parse(items[i]), k)
    requires forall j :: i < j < |items| ==> !WritesParam(parse(items[j]), k)
    ensures k in ParseAll(items, parse).value.params
    ensures ParseAll(items, parse).value.params[k] == parse(items[i]).value.val
    decreases |items|
  {
    ParseItemsStep(items, parse);
    var front := items[..|items| - 1];
    InsertFacts(ParseAll(front, parse).value, parse(items[|items| - 1]).value, k);
    if i < |items| - 1 {
      assert forall j :: 0 <= j < |front| ==> front[j] == items[j];
      ParamLastWins(front, parse, k, i);
    }
  }

  /** A key is in the metadata exactly when some token writes it as metadata. */
  lemma {:induction false} MetaKeys(items: seq<string>, parse: ItemParser, k: string)
    requires ParseAll(items, parse).Success?
    ensures k in ParseAll(items, parse).value.metadata <==>
      exists i :: 0 <= i < |items| && WritesMeta(parse(items[i]), k)
    decreases |items|
  {
    if |items| > 0 {
      var n := |items|;
      var front := items[..n - 1];
      ParseItemsStep(items, parse);
      MetaKeys(front, parse, k);
      var p := ParseAll(items, parse).value;
      var q := ParseAll(front, parse).value;
      var e := parse(items[n - 1]).value;
      InsertFacts(q, e, k);
      if e.Meta? && e.key == k {
        assert k in p.metadata;
        assert WritesMeta(parse(items[n - 1]), k);
      } else {
        assert (k in p.metadata) == (k in q.metadata);
        if k in q.metadata {
          var i :| 0 <= i < |front| && WritesMeta(parse(front[i]), k);
          assert items[i] == front[i];
          assert WritesMeta(parse(items[i]), k);
        }
        if exists i :: 0 <= i < n && WritesMeta(parse(items[i]), k) {
          var i :| 0 <= i < n && WritesMeta(parse(items[i]), k);
          assert i < n - 1;
          assert front[i] == items[i];
          assert WritesMeta(parse(front[i]), k);
        }
      }
    }
  }

  /** The last token that writes metadata `k` decides its value. */
  lemma {:induction false} MetaLastWins(items: seq<string>, parse: ItemParser, k: string, i: nat)
    requires ParseAll(items, parse).Success?
    requires i < |items| && WritesMeta(parse(items[i]), k)
    requires forall j :: i < j < |items| ==> !WritesMeta(parse(items[j]), k)
    ensures k in ParseAll(items, parse).value.metadata
    ensures ParseAll(items, parse).value.metadata[k] == parse(items[i]).value.text
    decreases |items|
  {
    ParseItemsStep(items, parse);
    var front := items[..|items| - 1];
    InsertFacts(ParseAll(front, parse).value, parse(items[|items| - 1]).value, k);
    if i < |items| - 1 {
      assert forall j :: 0 <= j < |front| ==> front[j] == items[j];
      MetaLastWins(front, parse, k, i);
    }
  }

  // Examples of the item grammar.

  lemma ParseLastWinsExample(decode: Json.Decoder)
    ensures ParseItems(["a=1", "a=2"], decode) == Success(Parsed(map["a" := Json.String("2")], map[]))
  {
    ClassifyAssign("a", "1", decode);
    ClassifyAssign("a", "2", decode);
    assert "a" + "=" + "1" == "a=1";
    assert "a" + "=" + "2" == "a=2";
    var step := ItemStep(decode);
    assert step("a=1") == Success(Param("a", Json.String("1")));
    assert step("a=2") == Success(Param("a", Json.String("2")));
    assert ["a=1", "a=2"][..1] == ["a=1"];
    assert ParseAll(["a=1"], step) == Success(Parsed(map["a" := Json.String("1")], map[]));
    assert map["a" := Json.String("1")]["a" := Json.String("2")] == map["a" := Json.String("2")];
    assert ParseAll(["a=1", "a=2"], step) == Success(Insert(Parsed(map["a" := Json.String("1")], map[]), Param("a", Json.String("2"))));
  }
  lemma ParseJsonExample(decode: Json.Decoder)
    requires decode("true") == Some(Json.Bool(true))
    ensures ParseItems(["x:=true"], decode) == Success(Parsed(map["x" := Json.Bool(true)], map[]))
  {
    ClassifyJsonAssign("x", "true", decode);
    assert "x" + ":=" + "true" == "x:=true";
  }
  lemma ParseBadTokenExample(decode: Json.Decoder)
    ensures ParseItems(["badtoken"], decode) == Failure(InvalidItem("badtoken"))
  {
    MatchItemRejects("badtoken");
  }
  lemma ColonEqualsExample(decode: Json.Decoder)
    ensures Classify("k:=", decode) == Success(Meta("k", "="))
  {
    ClassifyMeta("k", "=", decode);
    assert "k" + ":" + "=" == "k:=";
  }
  lemma ParseMetadataExample(decode: Json.Decoder)
    ensures ParseItems(["h:dev"], decode) == Success(Parsed(map[], map["h" := "dev"]))
  {
    ClassifyMeta("h", "dev", decode);
    assert "h" + ":" + "dev" == "h:dev";
  }
}

=== FILE: json.dfy ===
/** JSON values, as produced by `json.loads` (which also accepts `NaN`,
    `Infinity` and `-Infinity`, beyond the grammar of RFC 8259).
    The decoder itself is not modelled: it is a parameter, an arbitrary partial
    function from text to a value, `None` standing for `json.JSONDecodeError`. */
module Json {
  import opened Wrappers

  datatype Value =
    | Null
    | Bool(b: bool)
    | Number(literal: string)        // kept as its source text; no floating point
    | String(str: string)
    | Array(elements: seq<Value>)
    | Object(members: seq<(string, Value)>)

  type Decoder = string -> Option<Value>

  /** A parameter or keyword-argument map: a Python `dict[str, Any]`. */
  type Params = map<string, Value>
}

=== FILE: methods.dfy ===
/** The seven MCP methods the client accepts (the `METHODS` tuple), and the
    `match` in `Client.invoke` that turns each into one session call. */
module Methods {
  import opened Wrappers
  import Json

  datatype Method =
    | PromptsList
    | PromptsGet
    | ResourcesList
    | ResourcesRead
    | ResourceTemplatesList
    | ToolsList
    | ToolsCall

  /** `METHODS`, in its declared order. */
  const MethodNames: seq<string> := [
    "prompts/list",
    "prompts/get",
    "resources/list",
    "resources/read",
    "resources/templates/list",
    "tools/list",
    "tools/call"
  ]

  const AllMethods: seq<Method> := [
    PromptsList, PromptsGet, ResourcesList, ResourcesRead,
    ResourceTemplatesList, ToolsList, ToolsCall
  ]

  function Name(m: Method): string {
    match m
    case PromptsList => "prompts/list"
    case PromptsGet => "prompts/get"
    case ResourcesList => "resources/list"
    case ResourcesRead => "resources/read"
    case ResourceTemplatesList => "resources/templates/list"
    case ToolsList => "tools/list"
    case ToolsCall => "tools/call"
  }

  /** The cases of the `match self.method`; `None` is its catch-all `case _`. */
  function ParseMethod(s: string): (r: Option<Method>)
    ensures r.Some? ==> Name(r.value) == s
  {
    if s == "prompts/list" then Some(PromptsList)
    else if s == "prompts/get" then Some(PromptsGet)
    else if s == "resources/list" then Some(ResourcesList)
    else if s == "resources/read" then Some(ResourcesRead)
    else if s == "resources/templates/list" then Some(ResourceTemplatesList)
    else if s == "tools/list" then Some(ToolsList)
    else if s == "tools/call" then Some(ToolsCall)
    else None
  }

  /** `METHODS` lists every method once, by its name, in declaration order. */
  lemma MethodNamesTable()
    ensures |MethodNames| == |AllMethods| == 7
    ensures forall i :: 0 <= i < 7 ==> MethodNames[i] == Name(AllMethods[i])
    ensures forall m: Method :: m in AllMethods
    ensures forall i, j :: 0 <= i < j < 7 ==> MethodNames[i] != MethodNames[j]
  {
    forall m: Method
      ensures m in AllMethods
    {
      match m
      case PromptsList => assert AllMethods[0] == m;
      case PromptsGet => assert AllMethods[1] == m;
      case ResourcesList => assert AllMethods[2] == m;
      case ResourcesRead => assert AllMethods[3] == m;
      case ResourceTemplatesList => assert AllMethods[4] == m;
      case ToolsList => assert AllMethods[5] == m;
      case ToolsCall => assert AllMethods[6] == m;
    }
  }

  /** Names and methods are in one-to-one correspondence. */
  lemma ParseName(m: Method)
    ensures ParseMethod(Name(m)) == Some(m)
  {
  }

  /** The `match` accepts exactly the strings of `METHODS`, so after the check
      in `main` its catch-all cannot be reached. */
  lemma ParseMethodAcceptsMethods(s: string)
    ensures ParseMethod(s).Some? <==> s in MethodNames
  {
  }

  /** The session call each method makes, with its keyword arguments. */
  datatype Call =
    | ListPrompts
    | GetPrompt(kwargs: Json.Params)
    | ListResources
    | ReadResource(kwargs: Json.Params)
    | ListResourceTemplates
    | ListTools
    | CallTool(kwargs: Json.Params)

  /** The methods called with `**self.params`. */
  predicate TakesParams(m: Method) {
    m == PromptsGet || m == ResourcesRead || m == ToolsCall
  }

  /** The keyword arguments a call receives; list calls receive none. */
  function KwArgs(c: Call): Json.Params {
    match c
    case GetPrompt(kw) => kw
    case ReadResource(kw) => kw
    case CallTool(kw) => kw
    case _ => map[]
  }

  /** Which method a call answers. */
  function MethodOf(c: Call): Method {
    match c
    case ListPrompts => PromptsList
    case GetPrompt(_) => PromptsGet
    case ListResources => ResourcesList
    case ReadResource(_) => ResourcesRead
    case ListResourceTemplates => ResourceTemplatesList
    case ListTools => ToolsList
    case CallTool(_) => ToolsCall
  }

  /** The `ClientSession` coroutine a call awaits. */
  function SessionMethod(c: Call): string {
    match c
    case ListPrompts => "list_prompts"
    case GetPrompt(_) => "get_prompt"
    case ListResources => "list_resources"
    case ReadResource(_) => "read_resource"
    case ListResourceTemplates => "list_resource_templates"
    case ListTools => "list_tools"
    case CallTool(_) => "call_tool"
  }

  /** One arm of the `match`: the call for `m`. Param-taking methods receive
      the params unchanged; list methods drop them. */
  function Dispatch(m: Method, params: Json.Params): (c: Call)
    ensures MethodOf(c) == m
    ensures TakesParams(m) ==> KwArgs(c) == params
    ensures !TakesParams(m) ==> KwArgs(c) == map[]
  {
    match m
    case PromptsList => ListPrompts
    case PromptsGet => GetPrompt(params)
    case ResourcesList => ListResources
    case ResourcesRead => ReadResource(params)
    case ResourceTemplatesList => ListResourceTemplates
    case ToolsList => ListTools
    case ToolsCall => CallTool(params)
  }

  /** A call is determined by its method and keyword arguments, so list methods
      ignore whatever params they are given. */
  lemma DispatchDeterminedByKwArgs(m: Method, p: Json.Params, q: Json.Params)
    ensures Dispatch(m, p) == Dispatch(m, q) <==> KwArgs(Dispatch(m, p)) == KwArgs(Dispatch(m, q))
  {
  }

  /** Each method maps to exactly one session coroutine, and no two methods
      share one. */
  lemma SessionMethodInjective(m1: Method, m2: Method, p1: Json.Params, p2: Json.Params)
    ensures SessionMethod(Dispatch(m1, p1)) == SessionMethod(Dispatch(m2, p2)) <==> m1 == m2
  {
  }

  /** The `match` on the method string: the call, or `None` for the
      `Unsupported method` catch-all. */
  function DispatchByName(name: string, params: Json.Params): (r: Option<Call>)
    ensures r.Some? <==> name in MethodNames
    ensures r.Some? ==> Name(MethodOf(r.value)) == name
  {
    ParseMethodAcceptsMethods(name);
    match ParseMethod(name)
    case None => None
    case Some(m) => Some(Dispatch(m, params))
  }
}

=== FILE: shell_words.dfy ===
/** Whitespace-only word splitting: the part of `shlex.split` that decides
    whether a stdio target is empty. `shlex.split` is called with comments
    off, so `#` is an ordinary word character and only quotes and escapes
    are not modelled here; the transport selector takes the real splitter
    as a parameter and this is one concrete instance of it. */
module ShellWords {
  import opened Wrappers

  /** The characters `shlex` treats as whitespace by default: space, tab, CR, LF. */
  predicate IsBlank(c: char) {
    c == ' ' || c == '\t' || c == '\r' || c == '\n'
  }

  predicate NoBlank(w: string) {
    forall j :: 0 <= j < |w| ==> !IsBlank(w[j])
  }

  predicate AllBlank(s: string) {
    forall j :: 0 <= j < |s| ==> IsBlank(s[j])
  }

  /** Length of the word at the start of `s`. */
  function WordLength(s: string): (n: nat)
    requires |s| > 0 && !IsBlank(s[0])
    ensures 0 < n <= |s|
    ensures NoBlank(s[..n])
    ensures n < |s| ==> IsBlank(s[n])
  {
    if |s| == 1 || IsBlank(s[1]) then 1
    else
      var m := WordLength(s[1..]);
      assert s[..1 + m] == [s[0]] + s[1..][..m];
      1 + m
  }

  /** The maximal runs of non-blank characters of `s`, in order. */
  function Words(s: string): (ws: seq<string>)
    ensures forall w :: w in ws ==> |w| > 0 && NoBlank(w)
    decreases |s|
  {
    if |s| == 0 then []
    else if IsBlank(s[0]) then Words(s[1..])
    else
      var n := WordLength(s);
      [s[..n]] + Words(s[n..])
  }

  /** The non-blank characters of `s`, in order. */
  function NonBlank(s: string): string
    decreases |s|
  {
    if |s| == 0 then []
    else if IsBlank(s[0]) then NonBlank(s[1..])
    else [s[0]] + NonBlank(s[1..])
  }

  function Concat(ws: seq<string>): string {
    if |ws| == 0 then [] else ws[0] + Concat(ws[1..])
  }

  lemma {:induction false} NonBlankOfWord(w: string)
    requires NoBlank(w)
    ensures NonBlank(w) == w
    decreases |w|
  {
    if |w| > 0 {
      NonBlankOfWord(w[1..]);
    }
  }

  lemma {:induction false} NonBlankAppend(a: string, b: string)
    ensures NonBlank(a + b) == NonBlank(a) + NonBlank(b)
    decreases |a|
  {
    if |a| > 0 {
      assert (a + b)[1..] == a[1..] + b;
      NonBlankAppend(a[1..], b);
    } else {
      assert a + b == b;
    }
  }

  /** Splitting loses no character except blanks, and reorders nothing. */
  lemma {:induction false} WordsKeepText(s: string)
    ensures Concat(Words(s)) == NonBlank(s)
    decreases |s|
  {
    if |s| > 0 {
      if IsBlank(s[0]) {
        WordsKeepText(s[1..]);
      } else {
        var n := WordLength(s);
        WordsKeepText(s[n..]);
        var ws := Words(s);
        assert ws[0] == s[..n] && ws[1..] == Words(s[n..]);
        NonBlankOfWord(s[..n]);
        assert s == s[..n] + s[n..];
        NonBlankAppend(s[..n], s[n..]);
      }
    }
  }

  /** No words exactly when the string is empty or blank: the case the client
      reports as "stdio command is empty". */
  lemma {:induction false} WordsEmptyIff(s: string)
    ensures Words(s) == [] <==> AllBlank(s)
    decreases |s|
  {
    if |s| > 0 {
      if IsBlank(s[0]) {
        WordsEmptyIff(s[1..]);
        assert AllBlank(s) <==> AllBlank(s[1..]) by {
          assert forall j :: 0 < j < |s| ==> s[j] == s[1..][j - 1];
        }
      } else {
        assert !AllBlank(s);
      }
    }
  }

  /** A splitter for the transport selector that never reports a quoting error. */
  function WhitespaceSplit(s: string): Result<seq<string>, string> {
    Success(Words(s))
  }

  /** A word followed by a blank (or by nothing) is split off whole. */
  lemma WordThenRest(w: string, rest: string)
    requires |w| > 0 && NoBlank(w)
    requires |rest| == 0 || IsBlank(rest[0])
    ensures Words(w + rest) == [w] + Words(rest)
  {
    var s := w + rest;
    var n := WordLength(s);
    assert forall j :: 0 <= j < |w| ==> s[j] == w[j];
    assert forall j :: 0 <= j < |w| ==> !IsBlank(s[j]);
    assert |rest| > 0 ==> IsBlank(s[|w|]);
    assert s[..n] == w && s[n..] == rest;
  }

  /** Words joined by single spaces, as in `mycli --flag`. */
  function JoinWords(ws: seq<string>): string {
    if |ws| == 0 then ""
    else if |ws| == 1 then ws[0]
    else ws[0] + ([' '] + JoinWords(ws[1..]))
  }

  /** Splitting undoes joining: `mycli --flag` splits into `mycli` and `--flag`. */
  lemma {:induction false} WordsJoinRoundTrip(ws: seq<string>)
    requires forall w :: w in ws ==> |w| > 0 && NoBlank(w)
    ensures Words(JoinWords(ws)) == ws
    decreases |ws|
  {
    if |ws| == 1 {
      WordThenRest(ws[0], "");
      assert ws[0] + "" == ws[0];
    } else if |ws| > 1 {
      var rest := JoinWords(ws[1..]);
      WordsJoinRoundTrip(ws[1..]);
      var sp := [' '] + rest;
      assert sp[1..] == rest;
      assert Words(sp) == Words(rest);
      WordThenRest(ws[0], sp);
      assert ws == [ws[0]] + ws[1..];
    }
  }
}

=== FILE: strings.dfy ===
/** The few `str` methods the client relies on: `startswith`, `endswith` and
    `removesuffix`, on strings as sequences of characters. */
module Strings {

  predicate StartsWith(s: string, prefix: string) {
    |prefix| <= |s| && s[..|prefix|] == prefix
  }

  predicate EndsWith(s: string, suffix: string) {
    |suffix| <= |s| && s[|s| - |suffix|..] == suffix
  }

  /** Python's `str.removesuffix`: drops `suffix` once if present, otherwise no change. */
  function RemoveSuffix(s: string, suffix: string): (r: string)
    ensures EndsWith(s, suffix) ==> r + suffix == s
    ensures !EndsWith(s, suffix) ==> r == s
  {
    if EndsWith(s, suffix) then s[..|s| - |suffix|] else s
  }

  lemma EndsWithAppend(s: string, suffix: string)
    ensures EndsWith(s + suffix, suffix)
  {
    assert (s + suffix)[|s|..] == suffix;
  }

  lemma StartsWithAppend(s: string, prefix: string, tail: string)
    requires StartsWith(s, prefix)
    ensures StartsWith(s + tail, prefix)
  {
    assert (s + tail)[..|prefix|] == s[..|prefix|];
  }
}

=== FILE: transport.dfy ===
/** The transport-selection prefix of `Client.invoke`: which of the three
    transports a target string selects, the endpoint normalisation of the
    Streamable-HTTP URL, the routing of metadata to HTTP headers or to the
    child's environment, and the split of a stdio target into command and args. */
module Transport {
  import opened Wrappers
  import opened Strings
  import ShellWords

  type Metadata = map<string, string>

  datatype Transport =
    | Sse(url: string, headers: Option<Metadata>)
    | StreamHttp(url: string, headers: Option<Metadata>)
    | Stdio(command: string, args: seq<string>, env: Option<Metadata>)

  datatype TransportError =
    | StdioCommandEmpty         // "stdio command is empty"
    | SplitFailed(reason: string)  // the splitter's own error, e.g. an unclosed quote

  /** `shlex.split`, supplied from outside: the word list, or the splitter's error. */
  type Splitter = string -> Result<seq<string>, string>

  predicate IsHttpTarget(target: string) {
    StartsWith(target, "http://") || StartsWith(target, "https://")
  }

  predicate IsMcpEndpoint(url: string) {
    EndsWith(url, "/mcp") || EndsWith(url, "/mcp/")
  }

  /** `self.metadata or None`: an empty dict is passed on as absent. */
  function OrNone(metadata: Metadata): (r: Option<Metadata>)
    ensures r.None? <==> metadata == map[]
    ensures MetadataIn(r) == metadata
  {
    if metadata == map[] then None else Some(metadata)
  }

  /** The metadata a header/env option stands for; absent means none. */
  function MetadataIn(o: Option<Metadata>): Metadata {
    match o
    case None => map[]
    case Some(m) => m
  }

  /** The metadata a transport carries, whichever way it carries it. */
  function MetadataOf(t: Transport): Metadata {
    match t
    case Sse(_, headers) => MetadataIn(headers)
    case StreamHttp(_, headers) => MetadataIn(headers)
    case Stdio(_, _, env) => MetadataIn(env)
  }

  /** The Streamable-HTTP endpoint: kept when it already ends in `/mcp` or
      `/mcp/`, otherwise one trailing `/` is dropped and `/mcp/` appended. The
      check is a plain suffix test on the whole string, query included. */
  function NormaliseUrl(url: string): (r: string)
    ensures IsMcpEndpoint(r)
    ensures r == url <==> IsMcpEndpoint(url)
  {
    if IsMcpEndpoint(url) then url
    else
      EndsWithAppend(RemoveSuffix(url, "/"), "/mcp/");
      RemoveSuffix(url, "/") + "/mcp/"
  }

  /** A rewritten URL is the original less exactly one trailing `/` when it
      has one, followed by `/mcp/`. */
  lemma NormaliseShape(url: string)
    requires !IsMcpEndpoint(url)
    ensures EndsWith(url, "/") ==> NormaliseUrl(url) == url[..|url| - 1] + "/mcp/"
    ensures !EndsWith(url, "/") ==> NormaliseUrl(url) == url + "/mcp/"
  {
  }

  lemma NormaliseIdempotent(url: string)
    ensures NormaliseUrl(NormaliseUrl(url)) == NormaliseUrl(url)
  {
  }

  /** Normalising keeps a scheme prefix that ends in `/`, even for a bare
      `http://`, which becomes `http://mcp/`. */
  lemma NormaliseKeepsPrefix(url: string, prefix: string)
    requires StartsWith(url, prefix) && |prefix| > 0 && prefix[|prefix| - 1] == '/'
    ensures StartsWith(NormaliseUrl(url), prefix)
  {
    if !IsMcpEndpoint(url) {
      var base := RemoveSuffix(url, "/");
      if url == base || |base| >= |prefix| {
        assert base[..|prefix|] == url[..|prefix|];
        StartsWithAppend(base, prefix, "/mcp/");
      } else {
        assert url == base + "/" && |base| == |prefix| - 1;
        assert (base + "/mcp/")[..|prefix|] == base + "/";
      }
    }
  }

  /** The first half of `Client.invoke`. */
  function Select(target: string, metadata: Metadata, split: Splitter): (r: Result<Transport, TransportError>)
    ensures IsHttpTarget(target) ==> r.Success?
    ensures r.Success? && r.value.Sse? <==> IsHttpTarget(target) && EndsWith(target, "/sse")
    ensures r.Success? && r.value.StreamHttp? <==> IsHttpTarget(target) && !EndsWith(target, "/sse")
    ensures r.Success? && r.value.Sse? ==> r.value.url == target
    ensures r.Success? && r.value.StreamHttp? ==> r.value.url == NormaliseUrl(target)
    ensures r.Success? ==> MetadataOf(r.value) == metadata
    ensures r.Success? && r.value.Stdio? ==> split(target) == Success([r.value.command] + r.value.args)
    ensures !IsHttpTarget(target) ==> (r == Failure(StdioCommandEmpty) <==> split(target) == Success([]))
    ensures !IsHttpTarget(target) ==> (r.Failure? && r.error.SplitFailed? <==> split(target).Failure?)
    ensures !IsHttpTarget(target) && split(target).Failure? ==>
      r == Failure(SplitFailed(split(target).error))
  {
    if IsHttpTarget(target) then
      var headers := OrNone(metadata);
      if EndsWith(target, "/sse") then Success(Sse(target, headers))
      else Success(StreamHttp(NormaliseUrl(target), headers))
    else
      match split(target)
      case Failure(reason) => Failure(SplitFailed(reason))
      case Success(elements) =>
        if |elements| == 0 then Failure(StdioCommandEmpty)
        else
          assert elements == [elements[0]] + elements[1..];
          Success(Stdio(elements[0], elements[1..], OrNone(metadata)))
  }

  /** Absent headers or environment exactly when the metadata is empty. */
  lemma SelectAbsentMetadata(target: string, metadata: Metadata, split: Splitter)
    requires Select(target, metadata, split).Success?
    ensures var t := Select(target, metadata, split).value;
      (t.Stdio? ==> (t.env.None? <==> metadata == map[])) &&
      (!t.Stdio? ==> (t.headers.None? <==> metadata == map[]))
  {
  }

  /** Selecting again on a normalised Streamable-HTTP endpoint changes nothing. */
  lemma SelectStreamHttpStable(target: string, metadata: Metadata, split: Splitter)
    requires IsHttpTarget(target) && !EndsWith(target, "/sse")
    ensures Select(NormaliseUrl(target), metadata, split) == Select(target, metadata, split)
  {
    var url := NormaliseUrl(target);
    if StartsWith(target, "http://") {
      NormaliseKeepsPrefix(target, "http://");
    } else {
      NormaliseKeepsPrefix(target, "https://");
    }
    assert !EndsWith(url, "/sse") by {
      if EndsWith(url, "/mcp") {
        assert url[|url| - 2] == 'c';
      } else {
        assert url[|url| - 1] == '/';
      }
    }
  }

  /** With plain whitespace splitting, a blank target is the empty command. */
  lemma SelectBlankTarget(target: string, metadata: Metadata)
    requires ShellWords.AllBlank(target)
    ensures Select(target, metadata, ShellWords.WhitespaceSplit) == Failure(StdioCommandEmpty)
  {
    ShellWords.WordsEmptyIff(target);
    assert !IsHttpTarget(target) by {
      if |target| > 0 {
        assert ShellWords.IsBlank(target[0]);
      }
    }
  }

  /** With plain whitespace splitting, `cmd arg ...` runs `cmd` with the rest as args. */
  lemma SelectCommandLine(words: seq<string>, metadata: Metadata)
    requires |words| > 0
    requires forall w :: w in words ==> |w| > 0 && ShellWords.NoBlank(w)
    requires !IsHttpTarget(ShellWords.JoinWords(words))
    ensures Select(ShellWords.JoinWords(words), metadata, ShellWords.WhitespaceSplit) ==
      Success(Stdio(words[0], words[1..], OrNone(metadata)))
  {
    ShellWords.WordsJoinRoundTrip(words);
  }

  // Examples of the endpoint rule.

  lemma NormaliseBareHost()
    ensures NormaliseUrl("https://example.com") == "https://example.com/mcp/"
  {
    var u := "https://example.com";
    assert u[|u| - 1] == 'm';
    assert !EndsWith(u, "/mcp") && !EndsWith(u, "/mcp/") && !EndsWith(u, "/");
  }
  lemma NormaliseTrailingSlash()
    ensures NormaliseUrl("https://example.com/") == "https://example.com/mcp/"
  {
    var u := "https://example.com/";
    assert u[|u| - 2] == 'm';
    assert !EndsWith(u, "/mcp") && !EndsWith(u, "/mcp/") && EndsWith(u, "/");
    assert u[..|u| - 1] == "https://example.com";
  }
  lemma NormaliseAlreadyMcp()
    ensures NormaliseUrl("https://example.com/mcp") == "https://example.com/mcp"
  {
    var u := "https://example.com/mcp";
    assert u[|u| - 4..] == "/mcp";
  }
  /** The suffix test does not look for a query: `?x=1` ends the string, so the
      endpoint is rewritten. */
  lemma NormaliseQuery()
    ensures NormaliseUrl("https://example.com/mcp?x=1") == "https://example.com/mcp?x=1/mcp/"
  {
    var u := "https://example.com/mcp?x=1";
    assert u[|u| - 1] == '1';
    assert !EndsWith(u, "/mcp") && !EndsWith(u, "/mcp/") && !EndsWith(u, "/");
  }
  lemma SseExample(metadata: Metadata, split: Splitter)
    ensures Select("https://example.com/foo/sse", metadata, split) == Success(Sse("https://example.com/foo/sse", OrNone(metadata)))
  {
  }
}

=== FILE: wrappers.dfy ===
/** Option and Result, the failure-compatible wrappers the rest of the model uses
    for Python's `None` and for the `ValueError`s the client raises. */
module Wrappers {

  datatype Option<+T> = None | Some(value: T)

  datatype Result<+T, +E> = Success(value: T) | Failure(error: E) {

    predicate IsFailure() {
      Failure?
    }

    function PropagateFailure<U>(): Result<U, E>
      requires Failure?
    {
      Failure(error)
    }

    function Extract(): T
      requires Success?
    {
      value
    }
  }
}
